=== FILE: README.md ===
# talk-deck: card draw, game setup and session store

A Dafny model of the three pieces of sequential logic in talk-deck, a party game
where players reveal conversation-topic cards:

- **Card draw** (`POST /api/cards/draw`, module `CardDraw`). The handler checks the
  request, then builds the catalog filter. The filter always means "not already dealt
  to this room", plus "genre among the requested ones" unless the sentinel genre
  `random` was asked for. It checks the size of the pool and deals the first
  `cardCount` cards of a shuffle. The card table is an in-memory catalog and
  `findMany` is a filter over it. The handler is a function from the request, the
  room's dealt-card table, the catalog and a shuffle oracle to a response.
- **Game setup form** (`GameSetup.tsx`, module `GameSetup`). The genre toggle is
  list logic. The player-count and card-count buttons offer fixed values. The submit
  handler checks the name first, then the genre selection, and then builds the
  setup record. The form is a value and each user interaction is a step function.
- **Session store** (`/api/sessions`, module `Sessions`). The session table is a map
  held by the class `SessionStore`. `POST` (`Create`) and `PATCH` (`Update`) are
  methods that change the map. `GET` (`Get`) is a function that reads it.

Module `Js` holds the JavaScript value shapes the handlers depend on. A JSON body
field can be absent, `null` or a value. A body can also fail to parse. Truthiness
is written out: `0`, `null` and a missing value are falsy, and every array, even
`[]`, is truthy. `a || b` and `!== undefined` are written out too.

The random comparator in `sort(() => Math.random() - 0.5)` is replaced by an oracle
(`picks`). At each step the oracle chooses which remaining card comes next.
`CardDraw.ShuffledIsPermutation` proves that every oracle gives a permutation of the
pool. `CardDraw.EveryArrangementIsReachable` proves that every permutation comes
from some oracle. So the set of possible hands is exactly the set the handler can
deal. Nothing is said about how likely each hand is.

`server.js` is a Socket.IO stub with no game logic: its `joinRoom` handler uses
`roomId` and `playerId` without defining them (server.js:17-21), `dealCards` is
empty and `playCard` only re-emits.

A request body that does not parse makes `request.json()` throw, and one that
parses to JSON `null` makes the destructuring that follows it throw. Both end in the
handler's 500 answer, so both are the single `Malformed` case of `Js.Json`. Any other JSON value (a number, a string, an array) destructures to
absent fields and is a `Parsed` record whose fields are all `Missing`.

## Model

| member | source | states |
|---|---|---|
| `CardDraw.StringEntries` | app/api/cards/draw/route.ts:16 | the exclusion list holds exactly the string entries of the room's dealt collection, and no more ids than it has entries |
| `CardDraw.ExcludedIds` | app/api/cards/draw/route.ts:15-16 | a room with no dealt entry excludes nothing; otherwise an id is excluded iff it is a string entry of that room's collection (an undefined or null room id reads the key "undefined" or "null") |
| `CardDraw.WhereClause` | app/api/cards/draw/route.ts:34-43 | a catalog row matches the where object iff its id is not excluded and either `random` was requested or its genre is one of the requested genres |
| `CardDraw.FindMany` | app/api/cards/draw/route.ts:45-56 | the query returns exactly the catalog rows that satisfy the where object, each no more often than the catalog holds it |
| `CardDraw.Pool` | app/api/cards/draw/route.ts:33-56 | a card is in the pool iff it is in the catalog, its id is not excluded, and either `random` was requested or its genre is one of the requested genres |
| `CardDraw.RandomIgnoresOtherGenres` | app/api/cards/draw/route.ts:34-39 | with `random` among the genre ids the other ids do not change the pool, which is every catalog card whose id is not excluded |
| `CardDraw.Shuffled` | app/api/cards/draw/route.ts:74 | the shuffle keeps the pool's length |
| `CardDraw.ShuffledIsPermutation` | app/api/cards/draw/route.ts:74 | whatever the random comparator answers, the shuffle is a permutation of the pool |
| `CardDraw.EveryArrangementIsReachable` | app/api/cards/draw/route.ts:74 | every permutation of the pool is the outcome of some answers of the random comparator |
| `CardDraw.Draw` | app/api/cards/draw/route.ts:9-86 | a body that does not parse or is JSON `null` gives 500, and is the only way to get 500. Missing, null or empty genre ids give 400 whatever the count. After that, a missing, null, zero or negative count gives 400. An empty pool gives 404. A pool that is not empty but smaller than the count gives 400 with both numbers. A success deals exactly `cardCount` cards from the pool, none with an excluded id and each of a requested genre unless `random` was asked for |
| `CardDraw.DrawCanDealAnyHand` | app/api/cards/draw/route.ts:73-77 | for a valid request and a large enough pool, the first `cardCount` cards of any arrangement of the pool are a possible response |
| `CardDraw.ShuffledKeepsDistinctIds` | app/api/cards/draw/route.ts:74 | shuffling a pool whose ids are distinct keeps them distinct |
| `CardDraw.DrawnIdsAreDistinct` | app/api/cards/draw/route.ts:45-77 | when catalog ids are distinct, a dealt hand never holds the same card twice |
| `GameSetup.Without` | app/components/GameSetup.tsx:54 | removing an id leaves no occurrence of it and every other element as often as before, repeats included |
| `GameSetup.WithoutConcat` | app/components/GameSetup.tsx:54 | filtering a concatenation is filtering each part and concatenating, so the kept elements stay in their original order |
| `GameSetup.ToggleGenre` | app/components/GameSetup.tsx:50-59 | after a toggle the id is selected iff it was not before, and every other id keeps its membership |
| `GameSetup.ToggleKeepsOthersInOrder` | app/components/GameSetup.tsx:53-57 | apart from the toggled id the list is unchanged, order included |
| `GameSetup.ToggleCutsOut` | app/components/GameSetup.tsx:53-54 | toggling an id that occurs once cuts it out and leaves the elements before and after it in the same order |
| `GameSetup.ToggleTwiceRestores` | app/components/GameSetup.tsx:53-57 | toggling twice restores the list iff the id was absent, or occurred exactly once and last |
| `GameSetup.WithoutKeepsNoDuplicates` | app/components/GameSetup.tsx:54 | filtering a duplicate-free list keeps it duplicate-free |
| `GameSetup.ToggleKeepsNoDuplicates` | app/components/GameSetup.tsx:53-57 | a duplicate-free selection stays duplicate-free after a toggle |
| `GameSetup.Trim` | app/components/GameSetup.tsx:64 | trimming removes exactly the leading and trailing JavaScript white space; the result is empty iff the name is all white space |
| `GameSetup.Submit` | app/components/GameSetup.tsx:61-80 | an all-white-space name is rejected first. Then an empty genre selection is rejected. Otherwise the record holds exactly one player `{id: "1", name}`, with the same trimmed, non-empty name as owner, and the form's player count, card count and genres |
| `GameSetup.Step` | app/components/GameSetup.tsx:109-196 | a click on a missing or disabled control changes nothing. Typing sets the name to the typed value. A count button sets its count to its option value, and no other event changes that count. An enabled genre button replaces the selection by its toggle, and nothing else changes the selection |
| `GameSetup.RunAppend` | app/components/GameSetup.tsx:109-196 | interactions take effect one after another in the order they happen: one more interaction applies `Step` to the form reached so far |
| `GameSetup.RandomLocksGenres` | app/components/GameSetup.tsx:169-196 | while `random` is selected, no sequence of interactions that does not click `random` changes the genre selection, because every other genre button is disabled |
| `GameSetup.StepKeepsSettled` | app/components/GameSetup.tsx:123-196 | no interaction moves the counts off the option values or adds a duplicate genre |
| `GameSetup.RunKeepsSettled` | app/components/GameSetup.tsx:123-196 | the same holds for any sequence of interactions |
| `GameSetup.SubmittedSetupIsWellFormed` | app/components/GameSetup.tsx:21-150 | after any interactions from the initial form (2 players, 10 cards), an accepted setup asks for 2, 3 or 4 players and 5, 10, 20 or 30 cards and repeats no genre |
| `Sessions.NewSession` | app/api/sessions/route.ts:11-18 | a new record has the given card count when it is truthy and 10 otherwise, so never 0; it has the given genres when present and `[]` otherwise; no used cards; and index 0 |
| `Sessions.Patched` | app/api/sessions/route.ts:46-52 | an update replaces the used card ids when an array (even an empty one) is given. It replaces the index whenever one is given (even 0). No other field changes |
| `Sessions.PatchedIsIdempotent` | app/api/sessions/route.ts:48-51 | applying the same update twice equals applying it once |
| `Sessions.SessionStore.Create` | app/api/sessions/route.ts:5-29 | a parsed, non-`null` body whose fields have the modelled types stores the new record under the fresh id and returns it; an unparsable or `null` body, or a taken id, gives 500 and leaves the table unchanged |
| `Sessions.SessionStore.Update` | app/api/sessions/route.ts:32-63 | a missing or empty session id gives 400. An unparsable or `null` body, an unknown id, or a null index gives 500. All three leave the table unchanged. Otherwise only the named record is replaced by its patched version, which is returned |
| `Sessions.SessionStore.Get` | app/api/sessions/route.ts:66-98 | a missing or empty id gives 400, an unknown id gives 404, and otherwise the stored record comes back unchanged |

## Left out

- `server.js` (the Socket.IO stub): it holds no room or turn state. Its `joinRoom` refers to undefined variables, `dealCards` is empty and `playCard` only re-emits.
- The lifecycle of the process-wide `roomDealtCardIds` table: no code writes to it, so `CardDraw.Draw` takes it as a parameter.
- CardDraw.Draw: the body's `excludeCardIds` is carried in the request but, as in the handler, never read.
- CardDraw.Draw: `cardCount` is an integer. A fractional or non-numeric count, or `genreIds` that is not an array (a string also has `length` and `includes`), is not modelled.
- CardDraw.Card: a card row's `description` column and the genre record that `findMany` joins into it are returned by the route but not modelled; a card carries only its id, genre id and question.
- CardDraw.FindMany: the database's row order is taken to be catalog order. Because the shuffle can give every permutation, the set of possible hands does not depend on it.
- CardDraw.Shuffled: the oracle stands for the random comparator's answers. The bias of `sort` with a random comparator, and any probability, are not modelled.
- Database outages and other I/O failures: they would take the same 500 path as the modelled failures (an unparsable body, an unknown id on update, an id collision on create), but they are not modelled.
- Sessions.SessionStore.Update: a JSON `null` `currentCardIndex` counts as defined and is passed to the database. The model takes it to be rejected (500), which assumes the column is a required integer. The database schema is not part of this model.
- CardDraw.Draw: `roomId` is a string, absent or `null`. A number or other value is read under its string form (`roomDealtCardIds[5]` reads key "5"); that conversion is not modelled.
- Sessions.SessionStore.Create: `cardCount` is an integer and `selectedGenres` an array of strings. A string or fractional count (`"5" || 10` is `"5"`) or a non-array genre list is handed to the database, which would reject it with a 500; the model has no such body.
- Sessions.SessionStore.Update: `usedCardIds` is an array of strings and `currentCardIndex` an integer. A non-array used list or a non-integer index is handed to the database, which would reject it with a 500; the model has no such body.
- Sessions.Session: the model holds only the fields the handlers write. Timestamps and other columns the database adds are not modelled, and neither are non-string session ids.
- Rendering, the genre fetch and the loading state of `GameSetup.tsx`, the other components and pages, the genre and room routes, the Prisma client and the seed data: these are layout, I/O or passthrough queries with no logic of their own.
- GameSetup.Enabled: a click on a genre id is allowed for any id; which genre buttons exist depends on the fetched genre list, which is not modelled.

=== FILE: draw.dfy ===
/**
 * The card-draw endpoint `POST /api/cards/draw`: request validation, the catalog
 * filter built from the requested genres and the room's dealt cards, the checks on
 * the size of the pool, and the shuffle-and-slice that picks the hand.
 *
 * The database is an in-memory catalog and `findMany` a filter over it. The random
 * comparator given to `sort` is an oracle `picks`: each entry chooses which of the
 * remaining pool cards comes next. Every oracle yields a permutation of the pool,
 * and every permutation is yielded by some oracle, so the model neither adds nor
 * loses an outcome; it says nothing about how likely each one is.
 */
module CardDraw {
  import opened Js

  /** A catalog card. The genre record the query joins in is not modelled. */
  datatype Card = Card(id: string, genreId: string, question: string)

  /** An element of a room's dealt-card collection, which may hold non-string values. */
  datatype Dealt = DealtId(id: string) | DealtOther

  /** The destructured request body. `excludeCardIds` is accepted but never read. */
  datatype DrawRequest = DrawRequest(
    genreIds: Field<seq<string>>,
    cardCount: Field<int>,
    excludeCardIds: Field<seq<string>>,
    roomId: Field<string>)

  datatype DrawError =
    | GenresRequired
    | CountNotPositive
    | InsufficientCards(available: nat, requested: int)

  datatype DrawResponse =
    | Drawn(cards: seq<Card>)
    | BadRequest(reason: DrawError)
    | NoCards
    | ServerError

  /** The genre id that stands for "every genre". */
  const RandomGenre: string := "random"

  /**
   * The property key that `roomDealtCardIds[roomId]` reads: JavaScript converts an
   * `undefined` or `null` key to the strings "undefined" and "null".
   */
  function RoomKey(roomId: Field<string>): string {
    match roomId
    case Missing => "undefined"
    case Null => "null"
    case Present(s) => s
  }

  /** `Array.from(entries).filter(id => typeof id === 'string')`. */
  function StringEntries(entries: seq<Dealt>): (ids: seq<string>)
    ensures |ids| <= |entries|
    ensures forall id :: id in ids <==> DealtId(id) in entries
  {
    if entries == [] then []
    else
      var rest := StringEntries(entries[1..]);
      assert entries == [entries[0]] + entries[1..];
      match entries[0]
      case DealtId(id) => [id] + rest
      case DealtOther => rest
  }

  /** The exclusion list: the string entries of the room's dealt collection, or none. */
  function ExcludedIds(dealt: map<string, seq<Dealt>>, roomId: Field<string>): (ids: seq<string>)
    ensures RoomKey(roomId) !in dealt ==> ids == []
    ensures forall id :: id in ids <==>
      RoomKey(roomId) in dealt && DealtId(id) in dealt[RoomKey(roomId)]
  {
    var key := RoomKey(roomId);
    StringEntries(if key in dealt then dealt[key] else [])
  }

  /** The two shapes of the `where` object the handler passes to `findMany`. */
  datatype Where =
    | NotExcluded(notIn: seq<string>)
    | GenreAndNotExcluded(genreIn: seq<string>, notIn: seq<string>)

  /** `isRandom ? { id: { notIn } } : { genreId: { in: genreIds }, id: { notIn } }`. */
  function WhereClause(genreIds: seq<string>, excluded: seq<string>): (w: Where)
    ensures forall c :: Satisfies(c, w) <==>
      c.id !in excluded && (RandomGenre in genreIds || c.genreId in genreIds)
  {
    if RandomGenre in genreIds then NotExcluded(excluded)
    else GenreAndNotExcluded(genreIds, excluded)
  }

  /** Whether a catalog row matches a `where` object. */
  predicate Satisfies(c: Card, w: Where) {
    match w
    case NotExcluded(notIn) => c.id !in notIn
    case GenreAndNotExcluded(genreIn, notIn) => c.genreId in genreIn && c.id !in notIn
  }

  /** `prisma.card.findMany({ where: w })`, returning rows in catalog order. */
  function FindMany(catalog: seq<Card>, w: Where): (rows: seq<Card>)
    ensures |rows| <= |catalog|
    ensures forall c :: c in rows <==> c in catalog && Satisfies(c, w)
    ensures multiset(rows) <= multiset(catalog)
  {
    if catalog == [] then []
    else
      var rest := FindMany(catalog[1..], w);
      assert catalog == [catalog[0]] + catalog[1..];
      if Satisfies(catalog[0], w) then [catalog[0]] + rest else rest
  }

  /** The cards the query fetches for the given genre ids and exclusion list. */
  function Pool(genreIds: seq<string>, excluded: seq<string>, catalog: seq<Card>): (pool: seq<Card>)
    ensures multiset(pool) <= multiset(catalog)
    ensures forall c :: c in pool <==>
      c in catalog && c.id !in excluded && (RandomGenre in genreIds || c.genreId in genreIds)
  {
    FindMany(catalog, WhereClause(genreIds, excluded))
  }

  /** With "random" among the genre ids, the other ids play no part in the pool. */
  lemma RandomIgnoresOtherGenres(g1: seq<string>, g2: seq<string>, excluded: seq<string>, catalog: seq<Card>)
    requires RandomGenre in g1 && RandomGenre in g2
    ensures Pool(g1, excluded, catalog) == Pool(g2, excluded, catalog)
    ensures forall c :: c in Pool(g1, excluded, catalog) <==> c in catalog && c.id !in excluded
  {
  }

  /** The sequence without its element at index `i`. */
  function RemoveAt<T>(s: seq<T>, i: nat): (r: seq<T>)
    requires i < |s|
    ensures |r| == |s| - 1
    ensures multiset(r) == multiset(s) - multiset{s[i]}
  {
    assert s == s[..i] + [s[i]] + s[i + 1..];
    s[..i] + s[i + 1..]
  }

  /** The index of the next card the oracle chooses among `n > 0` remaining ones. */
  function NextPick(n: nat, picks: seq<nat>): (i: nat)
    requires n > 0
    ensures i < n
  {
    if picks != [] && picks[0] < n then picks[0] else 0
  }

  /**
   * `pool.sort(() => Math.random() - 0.5)` with the comparator's random answers
   * replaced by the oracle `picks`: the next card is the remaining one at index
   * `picks[0]` (the first one when that index is out of range or the oracle is
   * used up).
   */
  function Shuffled<T>(pool: seq<T>, picks: seq<nat>): (r: seq<T>)
    ensures |r| == |pool|
    decreases |pool|
  {
    if pool == [] then []
    else
      var i := NextPick(|pool|, picks);
      [pool[i]] + Shuffled(RemoveAt(pool, i), if picks == [] then [] else picks[1..])
  }

  /** Whatever the oracle answers, the shuffle is a permutation of the pool. */
  lemma {:induction false} ShuffledIsPermutation<T>(pool: seq<T>, picks: seq<nat>)
    ensures multiset(Shuffled(pool, picks)) == multiset(pool)
    decreases |pool|
  {
    if pool != [] {
      var i := NextPick(|pool|, picks);
      var more := if picks == [] then [] else picks[1..];
      ShuffledIsPermutation(RemoveAt(pool, i), more);
      assert Shuffled(pool, picks) == [pool[i]] + Shuffled(RemoveAt(pool, i), more);
    }
  }

  /** The first index at which `x` occurs in `s`. */
  function IndexOf<T(==)>(s: seq<T>, x: T): (i: nat)
    requires x in s
    ensures i < |s| && s[i] == x
  {
    if s[0] == x then 0 else 1 + IndexOf(s[1..], x)
  }

  /** An oracle that arranges `pool` as `target`. */
  function PicksFor<T(==)>(pool: seq<T>, target: seq<T>): seq<nat>
    requires multiset(target) == multiset(pool)
    decreases |pool|
  {
    if pool == [] then []
    else
      FirstIsInPool(pool, target);
      var i := IndexOf(pool, target[0]);
      TailArrangement(pool, target, i);
      [i] + PicksFor(RemoveAt(pool, i), target[1..])
  }

  /** Every arrangement of the pool is the outcome of some oracle. */
  lemma {:induction false} EveryArrangementIsReachable<T>(pool: seq<T>, target: seq<T>)
    requires multiset(target) == multiset(pool)
    ensures Shuffled(pool, PicksFor(pool, target)) == target
    decreases |pool|
  {
    if pool == [] {
      assert |target| == |multiset(target)| == 0;
    } else {
      FirstIsInPool(pool, target);
      var i := IndexOf(pool, target[0]);
      TailArrangement(pool, target, i);
      var more := PicksFor(RemoveAt(pool, i), target[1..]);
      assert PicksFor(pool, target) == [i] + more;
      EveryArrangementIsReachable(RemoveAt(pool, i), target[1..]);
      ArrangementStep(pool, target, i, more);
    }
  }

  /** Choosing `pool[i] == target[0]` first and arranging the rest as `target[1..]` gives `target`. */
  lemma ArrangementStep<T>(pool: seq<T>, target: seq<T>, i: nat, more: seq<nat>)
    requires i < |pool| && target != [] && pool[i] == target[0]
    requires Shuffled(RemoveAt(pool, i), more) == target[1..]
    ensures Shuffled(pool, [i] + more) == target
  {
    ShuffledChoosing(pool, i, more);
    assert target == [target[0]] + target[1..];
  }

  /** An arrangement of a non-empty pool starts with a card of the pool. */
  lemma FirstIsInPool<T>(pool: seq<T>, target: seq<T>)
    requires multiset(target) == multiset(pool) && pool != []
    ensures target != [] && target[0] in pool
  {
    assert |target| == |multiset(target)| == |pool|;
    assert target[0] in multiset(pool);
  }

  /** Once `pool[i]` is matched with the first card of an arrangement, the rests match. */
  lemma TailArrangement<T>(pool: seq<T>, target: seq<T>, i: nat)
    requires multiset(target) == multiset(pool)
    requires i < |pool| && target != [] && pool[i] == target[0]
    ensures multiset(target[1..]) == multiset(RemoveAt(pool, i))
  {
    assert target == [target[0]] + target[1..];
    assert multiset(target[1..]) == multiset(target) - multiset{target[0]};
  }

  /** An oracle that starts with an in-range index `i` puts `pool[i]` first. */
  lemma ShuffledChoosing<T>(pool: seq<T>, i: nat, more: seq<nat>)
    requires i < |pool|
    ensures Shuffled(pool, [i] + more) == [pool[i]] + Shuffled(RemoveAt(pool, i), more)
  {
    var picks := [i] + more;
    assert NextPick(|pool|, picks) == i;
    assert picks[1..] == more;
  }

  /** `!genreIds || genreIds.length === 0` fails. */
  predicate GenresGiven(req: DrawRequest) {
    req.genreIds.Present? && req.genreIds.value != []
  }

  /** `!cardCount || cardCount <= 0` fails. */
  predicate CountPositive(req: DrawRequest) {
    NumberTruthy(req.cardCount) && req.cardCount.value > 0
  }

  /** The pool a request with genre ids draws from. */
  function RequestPool(req: DrawRequest, dealt: map<string, seq<Dealt>>, catalog: seq<Card>): seq<Card>
    requires GenresGiven(req)
  {
    Pool(req.genreIds.value, ExcludedIds(dealt, req.roomId), catalog)
  }

  /** The first `count` cards of an arrangement of the pool are drawn from the pool. */
  lemma PrefixOfArrangement(pool: seq<Card>, arrangement: seq<Card>, count: nat)
    requires multiset(arrangement) == multiset(pool)
    requires count <= |arrangement|
    ensures multiset(arrangement[..count]) <= multiset(pool)
    ensures forall c :: c in arrangement[..count] ==> c in pool
  {
    assert arrangement == arrangement[..count] + arrangement[count..];
    forall c | c in arrangement[..count] ensures c in pool {
      assert c in multiset(arrangement);
    }
  }

  /** The handler `POST` of the draw route. */
  function Draw(request: Json<DrawRequest>, dealt: map<string, seq<Dealt>>, catalog: seq<Card>, picks: seq<nat>): (r: DrawResponse)
    ensures request.Malformed? <==> r == ServerError
    ensures request.Parsed? ==>
      (r == BadRequest(GenresRequired) <==> !GenresGiven(request.body))
    ensures request.Parsed? ==>
      (r == BadRequest(CountNotPositive) <==> GenresGiven(request.body) && !CountPositive(request.body))
    ensures r == NoCards <==>
      request.Parsed? && GenresGiven(request.body) && CountPositive(request.body) &&
      RequestPool(request.body, dealt, catalog) == []
    ensures (r.BadRequest? && r.reason.InsufficientCards?) <==>
      request.Parsed? && GenresGiven(request.body) && CountPositive(request.body) &&
      0 < |RequestPool(request.body, dealt, catalog)| < request.body.cardCount.value
    ensures r.BadRequest? && r.reason.InsufficientCards? ==>
      r.reason.available == |RequestPool(request.body, dealt, catalog)| &&
      r.reason.requested == request.body.cardCount.value
    ensures r.Drawn? ==>
      request.Parsed? && GenresGiven(request.body) && CountPositive(request.body) &&
      |r.cards| == request.body.cardCount.value &&
      multiset(r.cards) <= multiset(RequestPool(request.body, dealt, catalog))
    ensures r.Drawn? ==> forall c :: c in r.cards ==>
      c in catalog &&
      c.id !in ExcludedIds(dealt, request.body.roomId) &&
      (RandomGenre in request.body.genreIds.value || c.genreId in request.body.genreIds.value)
  {
    match request
    case Malformed => ServerError
    case Parsed(req) =>
      if !req.genreIds.Present? || req.genreIds.value == [] then BadRequest(GenresRequired)
      else if !NumberTruthy(req.cardCount) || req.cardCount.value <= 0 then BadRequest(CountNotPositive)
      else
        var available := RequestPool(req, dealt, catalog);
        var count := req.cardCount.value;
        if |available| == 0 then NoCards
        else if |available| < count then BadRequest(InsufficientCards(|available|, count))
        else
          var hand := Shuffled(available, picks)[..count];
          ShuffledIsPermutation(available, picks);
          PrefixOfArrangement(available, Shuffled(available, picks), count);
          Drawn(hand)
  }

  /** Any hand that is the first `cardCount` cards of some arrangement of the pool can be dealt. */
  lemma DrawCanDealAnyHand(req: DrawRequest, dealt: map<string, seq<Dealt>>, catalog: seq<Card>, arrangement: seq<Card>)
    requires GenresGiven(req) && CountPositive(req)
    requires multiset(arrangement) == multiset(RequestPool(req, dealt, catalog))
    requires req.cardCount.value <= |arrangement|
    ensures exists picks :: Draw(Parsed(req), dealt, catalog, picks) == Drawn(arrangement[..req.cardCount.value])
  {
    var pool := RequestPool(req, dealt, catalog);
    assert |pool| == |multiset(pool)| == |arrangement|;
    EveryArrangementIsReachable(pool, arrangement);
    var picks := PicksFor(pool, arrangement);
    assert Draw(Parsed(req), dealt, catalog, picks) == Drawn(arrangement[..req.cardCount.value]);
  }

  /** No two cards share an id. */
  predicate DistinctIds(cards: seq<Card>) {
    forall i, j :: 0 <= i < j < |cards| ==> cards[i].id != cards[j].id
  }

  lemma DistinctIdsSplit(cards: seq<Card>)
    requires DistinctIds(cards) && cards != []
    ensures DistinctIds(cards[1..])
    ensures forall c :: c in cards[1..] ==> c.id != cards[0].id
  {
    forall c | c in cards[1..] ensures c.id != cards[0].id {
      var k :| 0 <= k < |cards[1..]| && cards[1..][k] == c;
      assert cards[k + 1] == c;
    }
  }

  lemma DistinctIdsCons(c: Card, rest: seq<Card>)
    requires DistinctIds(rest)
    requires forall x :: x in rest ==> x.id != c.id
    ensures DistinctIds([c] + rest)
  {
    var s := [c] + rest;
    forall i, j | 0 <= i < j < |s| ensures s[i].id != s[j].id {
      assert s[j] == rest[j - 1];
      if i > 0 {
        assert s[i] == rest[i - 1];
      } else {
        assert rest[j - 1] in rest;
      }
    }
  }

  lemma {:induction false} FindManyKeepsDistinctIds(catalog: seq<Card>, w: Where)
    requires DistinctIds(catalog)
    ensures DistinctIds(FindMany(catalog, w))
  {
    if catalog != [] {
      DistinctIdsSplit(catalog);
      FindManyKeepsDistinctIds(catalog[1..], w);
      if Satisfies(catalog[0], w) {
        DistinctIdsCons(catalog[0], FindMany(catalog[1..], w));
      }
    }
  }

  /** Taking one card out of a pool with distinct ids leaves distinct ids, none equal to its id. */
  lemma RemoveAtKeepsDistinctIds(pool: seq<Card>, i: nat)
    requires DistinctIds(pool) && i < |pool|
    ensures DistinctIds(RemoveAt(pool, i))
    ensures forall x :: x in RemoveAt(pool, i) ==> x.id != pool[i].id
  {
    var rest := RemoveAt(pool, i);
    assert rest == pool[..i] + pool[i + 1..];
    forall a | 0 <= a < |rest| ensures rest[a] == pool[if a < i then a else a + 1] {
    }
    forall x | x in rest ensures x.id != pool[i].id {
      var a :| 0 <= a < |rest| && rest[a] == x;
    }
  }

  lemma {:induction false} ShuffledKeepsDistinctIds(pool: seq<Card>, picks: seq<nat>)
    requires DistinctIds(pool)
    ensures DistinctIds(Shuffled(pool, picks))
    decreases |pool|
  {
    if pool != [] {
      var i := NextPick(|pool|, picks);
      var rest := RemoveAt(pool, i);
      var more := if picks == [] then [] else picks[1..];
      RemoveAtKeepsDistinctIds(pool, i);
      ShuffledKeepsDistinctIds(rest, more);
      var tail := Shuffled(rest, more);
      ShuffledIsPermutation(rest, more);
      forall x | x in tail ensures x.id != pool[i].id {
        assert x in multiset(rest);
      }
      assert Shuffled(pool, picks) == [pool[i]] + tail;
      DistinctIdsCons(pool[i], tail);
    }
  }

  /** When catalog ids are distinct, a dealt hand never repeats a card. */
  lemma DrawnIdsAreDistinct(request: Json<DrawRequest>, dealt: map<string, seq<Dealt>>, catalog: seq<Card>, picks: seq<nat>)
    requires DistinctIds(catalog)
    requires Draw(request, dealt, catalog, picks).Drawn?
    ensures DistinctIds(Draw(request, dealt, catalog, picks).cards)
  {
    var req := request.body;
    var excluded := ExcludedIds(dealt, req.roomId);
    var pool := RequestPool(req, dealt, catalog);
    FindManyKeepsDistinctIds(catalog, WhereClause(req.genreIds.value, excluded));
    ShuffledKeepsDistinctIds(pool, picks);
  }
}

=== FILE: js.dfy ===
/** JavaScript and JSON value shapes shared by the route handlers and the setup form. */
module Js {

  /** A field of a parsed JSON request body: absent (`undefined`), JSON `null`, or a value. */
  datatype Field<T> = Missing | Null | Present(value: T)

  /** A value that may be absent, such as the result of `searchParams.get`. */
  datatype Option<T> = None | Some(value: T)

  /**
   * The outcome of `await request.json()` and the destructuring that follows it.
   * `Malformed` is a body that does not parse or parses to `null`: either makes the
   * handler throw. Any other JSON value destructures, a non-object to absent fields.
   */
  datatype Json<T> = Malformed | Parsed(body: T)

  /** JavaScript truthiness of a number field: `undefined`, `null` and `0` are falsy. */
  predicate NumberTruthy(f: Field<int>) {
    f.Present? && f.value != 0
  }

  /** JavaScript truthiness of an array field: every array, even `[]`, is truthy. */
  predicate ArrayTruthy<T>(f: Field<seq<T>>) {
    f.Present?
  }

  /** JavaScript truthiness of a string field: only the empty string is a falsy string. */
  predicate StringTruthy(f: Field<string>) {
    f.Present? && f.value != ""
  }

  /** `f || fallback` for a number field. */
  function OrNumber(f: Field<int>, fallback: int): int {
    if NumberTruthy(f) then f.value else fallback
  }

  /** `f || fallback` for an array field. */
  function OrArray<T>(f: Field<seq<T>>, fallback: seq<T>): seq<T> {
    if ArrayTruthy(f) then f.value else fallback
  }

  /** `f !== undefined`: JSON `null` counts as defined. */
  predicate Defined<T>(f: Field<T>) {
    !f.Missing?
  }
}

=== FILE: sessions.dfy ===
/**
 * The game-session endpoints `POST`, `PATCH` and `GET /api/sessions` over a
 * session table held in memory as a map from id to record. Every exception the
 * handlers catch becomes a 500 answer that leaves the table as it was.
 */
module Sessions {
  import opened Js

  /** A stored game session. */
  datatype Session = Session(
    id: string,
    cardCount: int,
    selectedGenres: seq<string>,
    usedCardIds: seq<string>,
    currentCardIndex: int)

  /** The fields of the `POST` body the handler reads. */
  datatype CreateBody = CreateBody(cardCount: Field<int>, selectedGenres: Field<seq<string>>)

  /** The fields of the `PATCH` body the handler reads. */
  datatype UpdateBody = UpdateBody(
    sessionId: Field<string>,
    usedCardIds: Field<seq<string>>,
    currentCardIndex: Field<int>)

  datatype SessionResponse =
    | Found(session: Session)
    | IdRequired
    | NotFound
    | ServerError
  {
    /** The HTTP status the handler answers with. */
    function Status(): int {
      match this
      case Found(_) => 200
      case IdRequired => 400
      case NotFound => 404
      case ServerError => 500
    }
  }

  /** The card count stored when the body gives none. */
  const DefaultCardCount: int := 10

  /** The record `POST` creates: the given settings, or their defaults, and no progress. */
  function NewSession(id: string, body: CreateBody): (s: Session)
    ensures s.id == id && s.usedCardIds == [] && s.currentCardIndex == 0
    ensures s.cardCount != 0
    ensures body.cardCount.Present? && body.cardCount.value != 0 ==> s.cardCount == body.cardCount.value
    ensures body.cardCount.Missing? || body.cardCount.Null? || body.cardCount == Present(0) ==>
      s.cardCount == DefaultCardCount
    ensures body.selectedGenres.Present? ==> s.selectedGenres == body.selectedGenres.value
    ensures !body.selectedGenres.Present? ==> s.selectedGenres == []
  {
    Session(id, OrNumber(body.cardCount, DefaultCardCount), OrArray(body.selectedGenres, []), [], 0)
  }

  /**
   * The record after `PATCH`'s conditional spreads: `usedCardIds` when the value
   * is truthy (an empty array is), `currentCardIndex` when it is defined (0 is).
   */
  function Patched(s: Session, body: UpdateBody): (r: Session)
    requires !body.currentCardIndex.Null?
    ensures r.id == s.id && r.cardCount == s.cardCount && r.selectedGenres == s.selectedGenres
    ensures body.usedCardIds.Present? ==> r.usedCardIds == body.usedCardIds.value
    ensures body.usedCardIds.Missing? || body.usedCardIds.Null? ==> r.usedCardIds == s.usedCardIds
    ensures body.currentCardIndex.Present? ==> r.currentCardIndex == body.currentCardIndex.value
    ensures body.currentCardIndex.Missing? ==> r.currentCardIndex == s.currentCardIndex
  {
    var withUsed := if ArrayTruthy(body.usedCardIds) then s.(usedCardIds := body.usedCardIds.value) else s;
    if Defined(body.currentCardIndex) then withUsed.(currentCardIndex := body.currentCardIndex.value)
    else withUsed
  }

  /** Applying the same update twice is the same as applying it once. */
  lemma PatchedIsIdempotent(s: Session, body: UpdateBody)
    requires !body.currentCardIndex.Null?
    ensures Patched(Patched(s, body), body) == Patched(s, body)
  {
  }

  class SessionStore {
    /** The session table, by id. */
    var sessions: map<string, Session>

    constructor ()
      ensures sessions == map[]
    {
      sessions := map[];
    }

    /**
     * `POST`: store a new record under `newId`, the id the database generates. A
     * body that does not parse, or an id already taken, makes the create fail.
     */
    method Create(request: Json<CreateBody>, newId: string) returns (r: SessionResponse)
      modifies this
      ensures request.Malformed? || newId in old(sessions) ==>
        r == ServerError && sessions == old(sessions)
      ensures request.Parsed? && newId !in old(sessions) ==>
        r == Found(NewSession(newId, request.body)) &&
        sessions == old(sessions)[newId := r.session]
    {
      if request.Malformed? || newId in sessions {
        return ServerError;
      }
      var s := NewSession(newId, request.body);
      sessions := sessions[newId := s];
      r := Found(s);
    }

    /**
     * `PATCH`: update the fields the body supplies on the record it names. A
     * missing or empty `sessionId` is a 400; an unknown id, or a `null`
     * `currentCardIndex` handed to the database, makes the update fail.
     */
    method Update(request: Json<UpdateBody>) returns (r: SessionResponse)
      modifies this
      ensures request.Malformed? ==> r == ServerError && sessions == old(sessions)
      ensures request.Parsed? && !StringTruthy(request.body.sessionId) ==>
        r == IdRequired && sessions == old(sessions)
      ensures (request.Parsed? && StringTruthy(request.body.sessionId) &&
               (request.body.sessionId.value !in old(sessions) || request.body.currentCardIndex.Null?)) ==>
        r == ServerError && sessions == old(sessions)
      ensures (request.Parsed? && StringTruthy(request.body.sessionId) &&
               request.body.sessionId.value in old(sessions) && !request.body.currentCardIndex.Null?) ==>
        r == Found(Patched(old(sessions)[request.body.sessionId.value], request.body)) &&
        sessions == old(sessions)[request.body.sessionId.value := r.session]
    {
      if request.Malformed? {
        return ServerError;
      }
      var body := request.body;
      if !StringTruthy(body.sessionId) {
        return IdRequired;
      }
      var id := body.sessionId.value;
      if id !in sessions || body.currentCardIndex.Null? {
        return ServerError;
      }
      var s := Patched(sessions[id], body);
      sessions := sessions[id := s];
      r := Found(s);
    }

    /** `GET`: look up the record named by the `sessionId` query parameter. */
    function Get(sessionId: Option<string>): (r: SessionResponse)
      reads this
      ensures r == IdRequired <==> sessionId == None || sessionId == Some("")
      ensures r == NotFound <==>
        sessionId.Some? && sessionId.value != "" && sessionId.value !in sessions
      ensures r.Found? ==>
        sessionId.Some? && sessionId.value in sessions && r.session == sessions[sessionId.value]
      ensures r.Status() != 500
    {
      match sessionId
      case None => IdRequired
      case Some(id) =>
        if id == "" then IdRequired
        else if id !in sessions then NotFound
        else Found(sessions[id])
    }
  }
}

=== FILE: setup.dfy ===
/**
 * The game-setup form: the genre toggle, the fixed option buttons for the player
 * and card counts, and the two-step validation that builds the setup record handed
 * to the parent component. React state holders are replaced wholesale, so the form
 * is a value and each user interaction a function from one form to the next.
 */
module GameSetup {

  /** The id of the "every genre" button; the draw route reads the same literal. */
  const RandomGenre: string := "random"

  /** `prev.filter(id => id !== genreId)`. */
  function Without(xs: seq<string>, genreId: string): (r: seq<string>)
    ensures |r| <= |xs|
    ensures forall x :: x in r <==> x in xs && x != genreId
    ensures forall x :: multiset(r)[x] == if x == genreId then 0 else multiset(xs)[x]
  {
    assert xs != [] ==> xs == [xs[0]] + xs[1..];
    if xs == [] then []
    else if xs[0] == genreId then Without(xs[1..], genreId)
    else [xs[0]] + Without(xs[1..], genreId)
  }

  /** `toggleGenre`: drop every occurrence of a selected id, or append an unselected one. */
  function ToggleGenre(prev: seq<string>, genreId: string): (next: seq<string>)
    ensures genreId in next <==> genreId !in prev
    ensures forall x :: x != genreId ==> (x in next <==> x in prev)
  {
    if genreId in prev then Without(prev, genreId) else prev + [genreId]
  }

  lemma {:induction false} WithoutAbsent(xs: seq<string>, genreId: string)
    requires genreId !in xs
    ensures Without(xs, genreId) == xs
  {
    if xs != [] {
      WithoutAbsent(xs[1..], genreId);
      assert xs == [xs[0]] + xs[1..];
    }
  }

  lemma {:induction false} WithoutAppended(xs: seq<string>, genreId: string)
    ensures Without(xs + [genreId], genreId) == Without(xs, genreId)
  {
    if xs == [] {
      assert [] + [genreId] == [genreId];
      assert [genreId][1..] == [];
    } else {
      WithoutAppended(xs[1..], genreId);
      assert (xs + [genreId])[1..] == xs[1..] + [genreId];
    }
  }

  /** Filtering a concatenation filters each part in place, so the kept ids stay in order. */
  lemma {:induction false} WithoutConcat(a: seq<string>, b: seq<string>, genreId: string)
    ensures Without(a + b, genreId) == Without(a, genreId) + Without(b, genreId)
  {
    if a == [] {
      assert [] + b == b;
    } else {
      var ab := a + b;
      assert ab[0] == a[0] && ab[1..] == a[1..] + b;
      WithoutConcat(a[1..], b, genreId);
      if a[0] == genreId {
        assert Without(ab, genreId) == Without(ab[1..], genreId);
      } else {
        assert Without(ab, genreId) == [a[0]] + Without(ab[1..], genreId);
        assert Without(a, genreId) == [a[0]] + Without(a[1..], genreId);
      }
    }
  }

  /** Toggling an id that occurs once cuts it out and leaves the rest, order included. */
  lemma ToggleCutsOut(a: seq<string>, b: seq<string>, genreId: string)
    requires genreId !in a && genreId !in b
    ensures ToggleGenre(a + [genreId] + b, genreId) == a + b
  {
    var xs := a + [genreId] + b;
    assert xs[|a|] == genreId;
    WithoutConcat(a + [genreId], b, genreId);
    WithoutConcat(a, [genreId], genreId);
    WithoutAbsent(a, genreId);
    WithoutAbsent(b, genreId);
    assert [genreId][1..] == [];
    assert Without([genreId], genreId) == [];
    assert Without(a + [genreId], genreId) == a;
  }

  /**
   * Apart from the toggled id itself, toggling keeps the list as it was, order
   * included; an id that was not selected goes to the end.
   */
  lemma ToggleKeepsOthersInOrder(prev: seq<string>, genreId: string)
    ensures Without(ToggleGenre(prev, genreId), genreId) == Without(prev, genreId)
  {
    if genreId in prev {
      WithoutAbsent(Without(prev, genreId), genreId);
    } else {
      WithoutAppended(prev, genreId);
    }
  }

  /**
   * Toggling twice gives back the original list exactly when the id was absent, or
   * occurred once and last; a selected id anywhere else comes back at the end.
   */
  lemma ToggleTwiceRestores(prev: seq<string>, genreId: string)
    ensures ToggleGenre(ToggleGenre(prev, genreId), genreId) == prev <==>
      genreId !in prev ||
      (prev != [] && prev[|prev| - 1] == genreId && genreId !in prev[..|prev| - 1])
  {
    if genreId !in prev {
      WithoutAppended(prev, genreId);
      WithoutAbsent(prev, genreId);
    } else {
      var rest := Without(prev, genreId);
      assert ToggleGenre(ToggleGenre(prev, genreId), genreId) == rest + [genreId];
      if prev[|prev| - 1] == genreId && genreId !in prev[..|prev| - 1] {
        assert prev == prev[..|prev| - 1] + [genreId];
        WithoutAppended(prev[..|prev| - 1], genreId);
        WithoutAbsent(prev[..|prev| - 1], genreId);
      } else if rest + [genreId] == prev {
        assert false;
      }
    }
  }

  /** No id occurs twice. */
  predicate NoDuplicates(xs: seq<string>) {
    forall i, j :: 0 <= i < j < |xs| ==> xs[i] != xs[j]
  }

  lemma NoDuplicatesCons(x: string, xs: seq<string>)
    requires NoDuplicates(xs) && x !in xs
    ensures NoDuplicates([x] + xs)
  {
    var s := [x] + xs;
    forall i, j | 0 <= i < j < |s| ensures s[i] != s[j] {
      assert s[j] == xs[j - 1];
      if i > 0 {
        assert s[i] == xs[i - 1];
      }
    }
  }

  lemma {:induction false} WithoutKeepsNoDuplicates(xs: seq<string>, genreId: string)
    requires NoDuplicates(xs)
    ensures NoDuplicates(Without(xs, genreId))
  {
    if xs != [] {
      assert NoDuplicates(xs[1..]) by {
        forall i, j | 0 <= i < j < |xs[1..]| ensures xs[1..][i] != xs[1..][j] {
          assert xs[1..][i] == xs[i + 1] && xs[1..][j] == xs[j + 1];
        }
      }
      WithoutKeepsNoDuplicates(xs[1..], genreId);
      if xs[0] != genreId {
        assert xs[0] !in xs[1..];
        NoDuplicatesCons(xs[0], Without(xs[1..], genreId));
      }
    }
  }

  /** A selection without duplicates keeps none after a toggle. */
  lemma ToggleKeepsNoDuplicates(prev: seq<string>, genreId: string)
    requires NoDuplicates(prev)
    ensures NoDuplicates(ToggleGenre(prev, genreId))
  {
    if genreId in prev {
      WithoutKeepsNoDuplicates(prev, genreId);
    } else {
      var next := prev + [genreId];
      forall i, j | 0 <= i < j < |next| ensures next[i] != next[j] {
        if j == |prev| {
          assert next[i] == prev[i];
        } else {
          assert next[i] == prev[i] && next[j] == prev[j];
        }
      }
    }
  }

  /** The characters `String.prototype.trim` removes: white space and line terminators. */
  predicate IsJsWhitespace(c: char) {
    c in {'\t', '\n', '\U{000B}', '\U{000C}', '\r', ' ', '\U{00A0}', '\U{1680}',
          '\U{2000}', '\U{2001}', '\U{2002}', '\U{2003}', '\U{2004}', '\U{2005}',
          '\U{2006}', '\U{2007}', '\U{2008}', '\U{2009}', '\U{200A}', '\U{2028}',
          '\U{2029}', '\U{202F}', '\U{205F}', '\U{3000}', '\U{FEFF}'}
  }

  /** Where the run of white space that starts at index `i` of `s` ends. */
  function SpaceEnd(s: string, i: nat): (n: nat)
    requires i <= |s|
    ensures i <= n <= |s|
    ensures forall k :: i <= k < n ==> IsJsWhitespace(s[k])
    ensures n == |s| || !IsJsWhitespace(s[n])
    decreases |s| - i
  {
    if i == |s| || !IsJsWhitespace(s[i]) then i else SpaceEnd(s, i + 1)
  }

  /** Where the run of white space that ends at index `j` of `s` starts, going no lower than `lo`. */
  function SpaceStart(s: string, lo: nat, j: nat): (n: nat)
    requires lo <= j <= |s|
    ensures lo <= n <= j
    ensures forall k :: n <= k < j ==> IsJsWhitespace(s[k])
    ensures n == lo || !IsJsWhitespace(s[n - 1])
    decreases j - lo
  {
    if j == lo || !IsJsWhitespace(s[j - 1]) then j else SpaceStart(s, lo, j - 1)
  }

  /**
   * `s.trim()`: the infix of `s` that starts after its leading white space, ends
   * before its trailing white space, and neither starts nor ends with white space.
   */
  function Trim(s: string): (r: string)
    ensures var lead := SpaceEnd(s, 0);
      lead + |r| <= |s| && r == s[lead..lead + |r|] &&
      (forall k :: 0 <= k < lead ==> IsJsWhitespace(s[k])) &&
      (forall k :: lead + |r| <= k < |s| ==> IsJsWhitespace(s[k]))
    ensures r == [] || (!IsJsWhitespace(r[0]) && !IsJsWhitespace(r[|r| - 1]))
    ensures r == [] <==> forall k :: 0 <= k < |s| ==> IsJsWhitespace(s[k])
  {
    var lead := SpaceEnd(s, 0);
    s[lead..SpaceStart(s, lead, |s|)]
  }

  /** `Player`, as the setup record carries it. */
  datatype Player = Player(id: string, name: string)

  /** `GameSetupData`, the record passed to `onComplete`. */
  datatype SetupData = SetupData(
    players: seq<Player>,
    requiredCount: int,
    cardCount: int,
    selectedGenres: seq<string>,
    ownerName: string)

  /** The form's state holders. */
  datatype SetupForm = SetupForm(
    playerName: string,
    playerCount: int,
    cardCount: int,
    selectedGenres: seq<string>)

  /** The player-count buttons. */
  const PlayerCountOptions: seq<int> := [2, 3, 4]

  /** The card-count buttons. */
  const CardCountOptions: seq<int> := [5, 10, 20, 30]

  /** The form as first rendered. */
  const InitialForm: SetupForm := SetupForm("", 2, 10, [])

  /** A user interaction: typing the name, or a click on a button with the given value. */
  datatype SetupEvent =
    | NameEdited(value: string)
    | PlayerCountClicked(count: int)
    | CardCountClicked(count: int)
    | GenreClicked(genreId: string)

  /**
   * Whether the clicked control exists and is enabled: the count buttons carry only
   * their option values, and the genre buttons are disabled while "random" is
   * selected (the "random" button itself never is).
   */
  predicate Enabled(form: SetupForm, e: SetupEvent) {
    match e
    case NameEdited(_) => true
    case PlayerCountClicked(c) => c in PlayerCountOptions
    case CardCountClicked(c) => c in CardCountOptions
    case GenreClicked(g) => g == RandomGenre || RandomGenre !in form.selectedGenres
  }

  /**
   * The form after one interaction; one on a missing or disabled control does nothing.
   * Each control sets only its own state holder.
   */
  function Step(form: SetupForm, e: SetupEvent): (next: SetupForm)
    ensures !Enabled(form, e) ==> next == form
    ensures e.NameEdited? ==> next.playerName == e.value
    ensures e.PlayerCountClicked? && e.count in PlayerCountOptions ==> next.playerCount == e.count
    ensures e.CardCountClicked? && e.count in CardCountOptions ==> next.cardCount == e.count
    ensures e.GenreClicked? && Enabled(form, e) ==>
      next.selectedGenres == ToggleGenre(form.selectedGenres, e.genreId)
    ensures next.playerName != form.playerName ==> e.NameEdited? && next.playerName == e.value
    ensures next.playerCount != form.playerCount ==>
      e.PlayerCountClicked? && next.playerCount == e.count && e.count in PlayerCountOptions
    ensures next.cardCount != form.cardCount ==>
      e.CardCountClicked? && next.cardCount == e.count && e.count in CardCountOptions
    ensures next.selectedGenres != form.selectedGenres ==> e.GenreClicked? && Enabled(form, e)
    ensures e.GenreClicked? && Enabled(form, e) ==> forall g :: g in next.selectedGenres <==>
      (if g == e.genreId then g !in form.selectedGenres else g in form.selectedGenres)
  {
    if !Enabled(form, e) then form
    else
      match e
      case NameEdited(v) => form.(playerName := v)
      case PlayerCountClicked(c) => form.(playerCount := c)
      case CardCountClicked(c) => form.(cardCount := c)
      case GenreClicked(g) => form.(selectedGenres := ToggleGenre(form.selectedGenres, g))
  }

  /** The form after a sequence of interactions. */
  function Run(form: SetupForm, events: seq<SetupEvent>): SetupForm
    decreases |events|
  {
    if events == [] then form else Run(Step(form, events[0]), events[1..])
  }

  /** Interactions take effect one after another, in the order they happen. */
  lemma {:induction false} RunAppend(form: SetupForm, events: seq<SetupEvent>, e: SetupEvent)
    ensures Run(form, events + [e]) == Step(Run(form, events), e)
    decreases |events|
  {
    if events == [] {
      assert [e][1..] == [];
    } else {
      assert (events + [e])[1..] == events[1..] + [e];
      RunAppend(Step(form, events[0]), events[1..], e);
    }
  }

  /**
   * While "random" is selected every other genre button is disabled, so only a
   * click on "random" itself can change the selection.
   */
  lemma {:induction false} RandomLocksGenres(form: SetupForm, events: seq<SetupEvent>)
    requires RandomGenre in form.selectedGenres
    requires forall i :: 0 <= i < |events| ==> events[i] != GenreClicked(RandomGenre)
    ensures Run(form, events).selectedGenres == form.selectedGenres
    decreases |events|
  {
    if events != [] {
      var next := Step(form, events[0]);
      assert next.selectedGenres == form.selectedGenres;
      forall i | 0 <= i < |events[1..]| ensures events[1..][i] != GenreClicked(RandomGenre) {
        assert events[1..][i] == events[i + 1];
      }
      RandomLocksGenres(next, events[1..]);
    }
  }

  /** What every reachable form satisfies. */
  predicate Settled(form: SetupForm) {
    form.playerCount in PlayerCountOptions &&
    form.cardCount in CardCountOptions &&
    NoDuplicates(form.selectedGenres)
  }

  lemma StepKeepsSettled(form: SetupForm, e: SetupEvent)
    requires Settled(form)
    ensures Settled(Step(form, e))
  {
    if Enabled(form, e) && e.GenreClicked? {
      ToggleKeepsNoDuplicates(form.selectedGenres, e.genreId);
    }
  }

  lemma {:induction false} RunKeepsSettled(form: SetupForm, events: seq<SetupEvent>)
    requires Settled(form)
    ensures Settled(Run(form, events))
    decreases |events|
  {
    if events != [] {
      StepKeepsSettled(form, events[0]);
      RunKeepsSettled(Step(form, events[0]), events[1..]);
    }
  }

  datatype Rejection = NameRequired | GenreRequired

  datatype SubmitOutcome = Rejected(reason: Rejection) | Completed(data: SetupData)

  /** `handleSubmit`: the name check, then the genre check, then the record for `onComplete`. */
  function Submit(form: SetupForm): (r: SubmitOutcome)
    ensures r == Rejected(NameRequired) <==>
      forall k :: 0 <= k < |form.playerName| ==> IsJsWhitespace(form.playerName[k])
    ensures r == Rejected(GenreRequired) <==>
      Trim(form.playerName) != [] && form.selectedGenres == []
    ensures r.Completed? ==>
      r.data.ownerName == Trim(form.playerName) && r.data.ownerName != [] &&
      r.data.players == [Player("1", r.data.ownerName)] &&
      r.data.requiredCount == form.playerCount &&
      r.data.cardCount == form.cardCount &&
      r.data.selectedGenres == form.selectedGenres && form.selectedGenres != []
  {
    var name := Trim(form.playerName);
    if name == [] then Rejected(NameRequired)
    else if |form.selectedGenres| == 0 then Rejected(GenreRequired)
    else Completed(SetupData([Player("1", name)], form.playerCount, form.cardCount, form.selectedGenres, name))
  }

  /** A setup accepted from a settled form has option values and no repeated genre. */
  lemma SubmitFromSettled(form: SetupForm)
    requires Settled(form)
    ensures Submit(form).Completed? ==>
      Submit(form).data.requiredCount in PlayerCountOptions &&
      Submit(form).data.cardCount in CardCountOptions &&
      NoDuplicates(Submit(form).data.selectedGenres)
  {
    var r := Submit(form);
    if r.Completed? {
      assert r.data.requiredCount == form.playerCount && r.data.cardCount == form.cardCount;
      assert r.data.selectedGenres == form.selectedGenres;
    }
  }

  /**
   * Whatever the user does before submitting, an accepted setup asks for 2, 3 or 4
   * players and 5, 10, 20 or 30 cards, and names no genre twice.
   */
  lemma SubmittedSetupIsWellFormed(events: seq<SetupEvent>)
    ensures Submit(Run(InitialForm, events)).Completed? ==>
      Submit(Run(InitialForm, events)).data.requiredCount in {2, 3, 4} &&
      Submit(Run(InitialForm, events)).data.cardCount in {5, 10, 20, 30} &&
      NoDuplicates(Submit(Run(InitialForm, events)).data.selectedGenres)
  {
    var form := Run(InitialForm, events);
    RunKeepsSettled(InitialForm, events);
    SubmitFromSettled(form);
    var r := Submit(form);
    if r.Completed? {
      OptionValues(r.data.requiredCount, r.data.cardCount);
    }
  }

  /** The option lists as the sets of values they offer. */
  lemma OptionValues(players: int, cards: int)
    ensures players in PlayerCountOptions ==> players in {2, 3, 4}
    ensures cards in CardCountOptions ==> cards in {5, 10, 20, 30}
  {
  }
}
